=== FILE: README.md ===
# Guitar chord-shape engine, modelled in Dafny

This project models the music-theory engine of a jazz guitar practice app
(`src/App.jsx`). The engine turns a sequence of chord-root names such as
`C F Bb Eb` into a fret for each of the six strings of every chord. It has
four parts, one Dafny module each, plus two support modules.

- **Pitch** (`pitch.dfy`). The note tables and `normalizeNote`, which
  resolves a free-form note name to one of the twelve sharp-based names
  `C C# D … B`, falling back to `C`. Also the display helpers
  `displayNoteLabel` and `noteLabel`. An independent reference,
  `SpelledPitch`, gives the pitch class a spelling denotes: a letter plus
  at most one `#` or `b`. `normalizeNote` is proved to agree with it on
  the cleaned form of every input.
- **Text** (`text.dfy`). The JavaScript string operations `normalizeNote`
  uses: `trim` (the ECMAScript whitespace set), a first-occurrence
  `replace`, and ASCII letter case.
- **Fretting** (`fretting.dfy`). `getFretForNote`, mod-12 subtraction
  against the open-string pitch classes `[4, 9, 2, 7, 11, 4]`. The model
  includes its two defensive branches, and proves that neither can be taken.
- **Catalog** (`catalog.dfy`). The three shape groups: relative frets per
  string, a reference string, and the chord tone on that string.
- **Transposer** (`transposer.dfy`). `transposeShape`:
  - anchor the shape so that the reference string sounds the root, third
    or fifth;
  - then add 12 to every played fret when the lowest one is negative or
    one is 0.

  `Placement` is a reference definition that needs no minimum: lift exactly
  when some played string would sit at or below the nut.
- **Optimizer** (`optimizer.dfy`). The greedy loop of
  `generateProgression`, extracted as a pure function:
  - the first chord uses the selected shape, or the group's first shape
    when no shape has that name;
  - every later chord uses the earliest shape that least moves the
    low E string away from the previous chord.

  The loop is stated twice. `IsBestAmong` is a declarative choice.
  `Walk` is the fold the source computes. The two are connected both ways:
  by the ensures of `Walk`, and by the uniqueness lemmas.
- **Scenarios** (`scenarios.dfy`). The app's default input, worked through:
  - the voicings of C, F, B flat and E flat in each major shape;
  - the fallback from the missing shape name "Root6";
  - the duplicate shape name in the sixth-chord group;
  - the three optimising passes of the default progression, and the whole default progression as one statement about `Progression`.

Frets are `seq<Option<int>>`, low E first, where `None` is a muted string.
A chord tone tag is kept as a string, so the `default` branch of the switch
covers "seventh" and any other tag.

## Model

| member | source | states |
|---|---|---|
| Text.TrimStartSpec | src/App.jsx:112 | dropping leading whitespace leaves a suffix whose removed prefix is all whitespace and which does not start with whitespace |
| Text.TrimEndSpec | src/App.jsx:112 | dropping trailing whitespace leaves a prefix whose removed suffix is all whitespace and which does not end with whitespace |
| Text.TrimSpec | src/App.jsx:112 | `trim` returns a window of its input with only whitespace outside it, and neither end of the result is whitespace |
| Text.WindowOfSuffixPrefix | src/App.jsx:112 | a prefix of a suffix, with whitespace cut off both ends, is such a window |
| Text.TrimStartOfPadded | src/App.jsx:112 | leading whitespace before a non-space start is removed exactly |
| Text.TrimEndOfPadded | src/App.jsx:112 | trailing whitespace after a non-space end is removed exactly |
| Text.TrimPadded | src/App.jsx:112 | surrounding whitespace never changes what `trim` returns for a trimmed core |
| Text.ReplaceFirst | src/App.jsx:112 | only the first occurrence of the pattern character is replaced; the length is kept |
| Text.ReplaceFirstAbsent | src/App.jsx:112 | replacing an absent character changes nothing |
| Text.Trim | src/App.jsx:112 | `trim`: leading then trailing whitespace removed; what it returns is stated by `Text.TrimSpec` and `Text.TrimPadded` |
| Text.Capitalize | src/App.jsx:113-117 | the first character is upper-cased and the rest lower-cased; the length is kept |
| Pitch.Lookup | src/App.jsx:138 | a table read yields a value exactly for the table's keys, and that value is the table's |
| Pitch.ScaleIndexOf | src/App.jsx:142 | `indexOf` on the scale is -1 exactly for a non-canonical name; otherwise that position holds the name |
| Pitch.PitchIndex | src/App.jsx:20 | a canonical name's position is in [0, 11] and holds the name |
| Pitch.PitchIndexAt | src/App.jsx:20 | the scale names are distinct, so a position is recovered from its name |
| Pitch.Clean | src/App.jsx:112-117 | the cleaning steps in the source's order: trim, first ♭ to `b`, first ♯ to `#`, capitalise; its result on spellings is stated by `Pitch.CleanSpelled` |
| Pitch.NormalizeNote | src/App.jsx:110-133 | `normalizeNote` is total and always returns one of the twelve scale names |
| Pitch.RootPitch | src/App.jsx:153-154 | the root's pitch class is in [0, 11] and its scale name is the normalised root |
| Pitch.SpelledPitch | src/App.jsx:3-7 | a spelled pitch class lies in [0, 11] |
| Pitch.EnharmonicMapIsSpelling | src/App.jsx:3-7 | the enharmonic table's keys are exactly the spellings (a letter and at most one `#` or `b`), and each maps to the scale name of the pitch class it spells |
| Pitch.EnharmonicKeysAreSpellings | src/App.jsx:3-7 | every key of the enharmonic table spells the pitch class of its value |
| Pitch.NaturalKeysAreSpellings | src/App.jsx:6 | the natural keys spell the pitch class of their value |
| Pitch.SharpKeysAreSpellings | src/App.jsx:5 | the sharp keys spell the pitch class of their value |
| Pitch.FlatKeysAreSpellings | src/App.jsx:4 | the flat keys spell the pitch class of their value |
| Pitch.SpellingsAreEnharmonicKeys | src/App.jsx:3-7 | every spelling is a key of the enharmonic table |
| Pitch.TablesAgree | src/App.jsx:3-20 | the flat table agrees with the enharmonic table, and every scale name maps to itself there |
| Pitch.NormalizeMatchesSpelling | src/App.jsx:110-133 | `normalizeNote` returns the scale name of the pitch class the cleaned input spells, and "C" when it spells none |
| Pitch.GlyphsReplaced | src/App.jsx:112 | the flat and sharp glyphs after a letter become `b` and `#` |
| Pitch.CleanSpelled | src/App.jsx:112-117 | cleaning a letter and an accepted mark gives the upper-case letter and the ASCII mark |
| Pitch.CleanBeforeCapitalize | src/App.jsx:112 | before capitalisation, the cleaned spelling is the letter and the glyph-free mark |
| Pitch.CapitalizeDeGlyphed | src/App.jsx:113-117 | capitalising the glyph-free spelling gives the upper-case letter and the ASCII mark |
| Pitch.TrimmedSpelling | src/App.jsx:112 | a letter and a mark are already trimmed |
| Pitch.CapitalizeSpelled | src/App.jsx:113-117 | capitalisation upper-cases the letter and turns a `B` mark into `b` |
| Pitch.SpelledPitchOfMark | src/App.jsx:3-7 | a cleaned spelling denotes the letter's pitch class shifted by the accidental |
| Pitch.NormalizeSpelledNote | src/App.jsx:110-133 | a letter in either case, an optional `#`, `♯`, `b`, `B` or `♭`, and any surrounding whitespace normalise to the pitch class spelled |
| Pitch.NormalizeLetterMark | src/App.jsx:110-133 | the same for a spelling without surrounding whitespace |
| Pitch.CanonicalIsSpelling | src/App.jsx:20 | every scale name is a letter, optionally followed by `#`, that spells its own position |
| Pitch.NormalizeCanonicalAt | src/App.jsx:123-125 | every scale name normalises to itself |
| Pitch.NormalizeCanonical | src/App.jsx:123-125 | every canonical name normalises to itself |
| Pitch.NormalizeIdempotent | src/App.jsx:110-133 | normalising twice is normalising once |
| Pitch.FlatSpellingsBecomeSharps | src/App.jsx:9-15 | Db, Eb, Gb, Ab and Bb become their sharp names, in either letter case and with `b`, `B` or `♭` |
| Pitch.BoundarySpellings | src/App.jsx:126-130 | C flat becomes B, F flat E, B sharp C and E sharp F, in either letter case and with ASCII or glyph marks |
| Pitch.UnrecognisedBecomesC | src/App.jsx:131-132 | input that spells no note becomes "C" |
| Pitch.UnrecognisedLetter | src/App.jsx:131-132 | "H" becomes "C" |
| Pitch.UnrecognisedEmpty | src/App.jsx:131-132 | the empty name becomes "C" |
| Pitch.DisplayNoteLabel | src/App.jsx:203-209 | with the flat preference a black key becomes its flat spelling; otherwise the note is unchanged, and any change is such a flat spelling |
| Pitch.DisplayRoundTripAt | src/App.jsx:203-209 | the label of a scale name normalises back to the name, with or without the flat preference |
| Pitch.DisplayLabelAt | src/App.jsx:203-209 | a label differs from the scale name exactly when flats are preferred and the note is a black key, and it always normalises back |
| Pitch.DisplayRoundTrip | src/App.jsx:203-209 | `displayNoteLabel(n, false) == n`, and `normalizeNote(displayNoteLabel(n, true)) == n`, for every canonical `n` |
| Pitch.JsRemainder12 | src/App.jsx:213 | JavaScript's truncating `%`: the mathematical remainder for non-negative operands; for negative ones 0 on multiples of 12 and otherwise the remainder minus 12, so it lies in (-12, 0] |
| Pitch.PreferFlat | src/App.jsx:215 | a missing chord name never prefers flats; a present one does exactly when it contains `b`; used by `Pitch.NoteLabel` |
| Pitch.NoteLabel | src/App.jsx:211-217 | a label exists exactly when the index is not negative; it normalises to the pitch class the string sounds at the fret, and it differs from the sharp name exactly when the chord name has a `b` and the note is a black key, in which case it is that key's flat spelling from the display table |
| Fretting.CanonicalIsNotFlat | src/App.jsx:9-20 | no scale name is a key of the flat table |
| Fretting.FretForPitch | src/App.jsx:147-149 | the fret is in [0, 11] and the string sounds the pitch class there |
| Fretting.GetFretForNote | src/App.jsx:135-150 | the fret is in [0, 11] and the string sounds the normalised note there |
| Fretting.FlatRecheckUnreachable | src/App.jsx:138-140 | the second flat conversion never fires |
| Fretting.MissingNoteUnreachable | src/App.jsx:142-146 | the "not found, using C" fallback never fires |
| Fretting.FretIsUnique | src/App.jsx:147-149 | the fret is the only one in [0, 11] at which the string sounds the pitch class |
| Fretting.FretForCanonical | src/App.jsx:135-150 | on a scale name, `getFretForNote` is its final subtraction |
| Catalog.CatalogShapesAreRegular | src/App.jsx:23-106 | every catalog shape has six strings and the low E string as reference with offset 0, and no offset is more than 11 below it |
| Catalog.CatalogGroupsAreValid | src/App.jsx:23-106 | every shape of every group is well formed |
| Transposer.ToneOf | src/App.jsx:159-176 | the switch cases "root", "third", "fifth", and the default for every other tag; their offsets are stated by `Transposer.ToneTags` |
| Transposer.AnchorPitch | src/App.jsx:158-176 | the anchor tone is a pitch class in [0, 11] |
| Transposer.TargetFret | src/App.jsx:156-176 | the target fret is in [0, 11] and the reference string sounds the anchor tone of the normalised root there |
| Transposer.AnchorFret | src/App.jsx:159-176 | asking `getFretForNote` for the scale name of the anchor tone gives the fret where the string sounds the anchor pitch |
| Transposer.ToneTags | src/App.jsx:159-176 | "third" anchors 4 semitones above the root and "fifth" 7; "root", "seventh" and any other tag anchor the root |
| Transposer.Shift | src/App.jsx:179-184 | muted strings stay muted and every played fret moves by the same amount |
| Transposer.MinFret | src/App.jsx:186-188 | the minimum is at most every played fret and is one of them, or 0 when no string is played |
| Transposer.PlaceShape | src/App.jsx:179-199 | the min-and-zero test of the source lifts by an octave exactly when the reference placement needs it |
| Transposer.PlacementKeepsShape | src/App.jsx:179-199 | the placement keeps the distance between any two played strings |
| Transposer.PlacementAboveNut | src/App.jsx:186-199 | with the target fret in [0, 11] and offsets at least -11, every played fret ends up at 1 or above |
| Transposer.PlacementIsLowest | src/App.jsx:186-199 | the octave is added only when staying put would leave a played fret at or below the nut; after it, some played fret is at most 12 |
| Transposer.PlacementKeepsPitchClass | src/App.jsx:179-199 | a string with offset 0 sounds the target fret's pitch class, lifted or not |
| Transposer.TransposeShape | src/App.jsx:152-200 | the result has one slot per string and mutes exactly the strings the shape mutes; `Transposer.TransposeMovesRigidly`, `Transposer.TransposeSoundsAnchor` and `Transposer.TransposeAboveNut` state the rest |
| Transposer.TransposeSoundsAnchor | src/App.jsx:152-199 | the reference string of a transposed shape sounds the root, major third or perfect fifth of the chord, as the tag says |
| Transposer.TransposeMovesRigidly | src/App.jsx:152-199 | muted strings are kept, and every played fret is its offset plus one common fret: the target fret or the target fret plus 12 |
| Transposer.TransposeAboveNut | src/App.jsx:152-199 | with offsets at least -11, no played fret of a transposed shape is 0 or negative |
| Optimizer.FindShape | src/App.jsx:399 | `find` returns the first shape with the name, and nothing exactly when no shape has it |
| Optimizer.StartShape | src/App.jsx:399 | the first shape with the selected name, as `find` returns it, when some shape has that name, and the group's first shape otherwise; always a shape of the group |
| Optimizer.Label | src/App.jsx:403 | the label is the token as typed, then the shape name in parentheses; `Scenarios.VoicingIs` states it for a voicing |
| Optimizer.Voicing | src/App.jsx:397-406 | a chord voiced with one shape: the label, the shape transposed to the normalised token, and the shape name, as `Scenarios.VoicingIs` states |
| Optimizer.Leftmost | src/App.jsx:415 | the low E fret that the optimiser compares, with a muted string read as 0; used by `Optimizer.Moves` |
| Optimizer.Move | src/App.jsx:429-430 | the absolute change of the low E fret; `Optimizer.Moves` and `Optimizer.Best` state its use |
| Optimizer.ReduceBest | src/App.jsx:427-431 | the strict-`<` reduce picks the first position of the least value |
| Optimizer.FirstMinimumUnique | src/App.jsx:427-431 | there is only one first position of the least value |
| Optimizer.Candidates | src/App.jsx:418-425 | one entry per shape of the group, in the group's order: entry j is shape j voiced for the token |
| Optimizer.FirstEntry | src/App.jsx:397-406 | the first chord: labelled with the token as typed and its shape's name, and equal to the token voiced with the first shape named as selected, or with the group's first shape when none is; `Optimizer.Progression` puts it first and `Scenarios.DefaultFirstEntry` states the default case |
| Optimizer.Moves | src/App.jsx:428-430 | each movement is the distance of the candidate's low E fret from the previous one |
| Optimizer.Best | src/App.jsx:427-431 | the chosen candidate is the first of those that move the low E string least |
| Optimizer.BestIsUnique | src/App.jsx:427-431 | any candidate that meets that description is the one chosen |
| Optimizer.Walk | src/App.jsx:412-439 | the loop keeps the first chord and makes the greedy choice at every later chord |
| Optimizer.WalkIsUnique | src/App.jsx:412-439 | a sequence that makes the greedy choice at every step is the loop's result |
| Optimizer.Passes | src/App.jsx:412-425 | one non-empty candidate list per chord after the first |
| Optimizer.Progression | src/App.jsx:396-439 | one entry per token; the first is the start shape voiced for the first token, and every later one is the greedy choice among the group's voicings measured from the entry before it |
| Optimizer.ProgressionIsUnique | src/App.jsx:396-439 | the progression is the only sequence with those properties |
| Optimizer.GenerateProgression | src/App.jsx:390-439 | nothing exactly when the group has no shapes; otherwise one entry per token, the first voiced with the start shape and every later one the greedy choice among the group's voicings measured from the entry before it |
| Optimizer.GenerateFromCatalog | src/App.jsx:388-394 | nothing exactly when the selected group is not in the catalog |
| Scenarios.RootPitchAt | src/App.jsx:153-154 | each scale name resolves to its own pitch class |
| Scenarios.Transposed | src/App.jsx:152-200 | a transposition is its target fret followed by its placement |
| Scenarios.VoicingIs | src/App.jsx:398-406 | a voicing carries the label, the transposed frets and the shape name |
| Scenarios.MajorVoicing | src/App.jsx:24-46 | a major shape voiced on a root has the placement at that root's target fret |
| Scenarios.MajRootOnC | src/App.jsx:26-31 | C in Maj-Root6 is [8, x, 5, 9, x, x] |
| Scenarios.MajThirdOnC | src/App.jsx:33-38 | C in Maj-Third6 is lifted to [12, x, 10, 12, x, x] |
| Scenarios.MajFifthOnC | src/App.jsx:40-45 | C in Maj-Fifth6 is [3, x, 2, 5, x, x] |
| Scenarios.MajRootOnF | src/App.jsx:26-31 | F in Maj-Root6 is lifted to [13, x, 10, 14, x, x] |
| Scenarios.MajThirdOnF | src/App.jsx:33-38 | F in Maj-Third6 is [5, x, 3, 5, x, x] |
| Scenarios.MajFifthOnF | src/App.jsx:40-45 | F in Maj-Fifth6 is [8, x, 7, 10, x, x] |
| Scenarios.MajRootOnBb | src/App.jsx:26-31 | B flat in Maj-Root6 is [6, x, 3, 7, x, x] |
| Scenarios.MajThirdOnBb | src/App.jsx:33-38 | B flat in Maj-Third6 is [10, x, 8, 10, x, x] |
| Scenarios.MajFifthOnBb | src/App.jsx:40-45 | B flat in Maj-Fifth6 is lifted, because of a fret at 0, to [13, x, 12, 15, x, x] |
| Scenarios.MajRootOnEb | src/App.jsx:26-31 | E flat in Maj-Root6 is [11, x, 8, 12, x, x] |
| Scenarios.MajThirdOnEb | src/App.jsx:33-38 | E flat in Maj-Third6 is [3, x, 1, 3, x, x] |
| Scenarios.MajFifthOnEb | src/App.jsx:40-45 | E flat in Maj-Fifth6 is [6, x, 5, 8, x, x] |
| Scenarios.PickOfThree | src/App.jsx:427-431 | among three candidates the choice is the first of the least movements |
| Scenarios.DefaultStartShape | src/App.jsx:399 | "Root6" names no major shape, so the first chord falls back to Maj-Root6 |
| Scenarios.DefaultFirstEntry | src/App.jsx:396-406 | the default first chord, C, is [8, x, 5, 9, x, x] |
| Scenarios.DuplicateNameFindsFirst | src/App.jsx:91-104 | a lookup of "6th-Fifth6" finds the first of the two shapes with that name, and the start shape is that one, not the later shape with different frets |
| Scenarios.NaturalName | src/App.jsx:110-133 | a bare note letter normalises to its own name |
| Scenarios.FlatName | src/App.jsx:110-133 | a letter followed by `b` normalises to the name a semitone below the letter |
| Scenarios.CRoot | src/App.jsx:385 | the token "C" names C |
| Scenarios.FRoot | src/App.jsx:385 | the token "F" names F |
| Scenarios.BFlatRoot | src/App.jsx:385 | the token "Bb" names A sharp |
| Scenarios.EFlatRoot | src/App.jsx:385 | the token "Eb" names D sharp |
| Scenarios.DefaultRoots | src/App.jsx:385 | the four default tokens name C, F, A sharp and D sharp |
| Scenarios.CandidatesOnF | src/App.jsx:418-425 | F's candidates are [13, x, 10, 14], [5, x, 3, 5] and [8, x, 7, 10], the last Maj-Fifth6 |
| Scenarios.CandidatesOnBb | src/App.jsx:418-425 | B flat's candidates are [6, x, 3, 7], [10, x, 8, 10] and [13, x, 12, 15], the first Maj-Root6 |
| Scenarios.CandidatesOnEb | src/App.jsx:418-425 | E flat's candidates are [11, x, 8, 12], [3, x, 1, 3] and [6, x, 5, 8], the last Maj-Fifth6 |
| Scenarios.DefaultProgressionSteps | src/App.jsx:412-439 | from C at fret 8: F takes Maj-Fifth6 [8, x, 7, 10]; B flat ties Maj-Root6 (6) with Maj-Third6 (10) and keeps the earlier Maj-Root6 [6, x, 3, 7]; E flat takes Maj-Fifth6 [6, x, 5, 8] |
| Scenarios.DefaultProgression | src/App.jsx:383-439 | the default input (tokens C F Bb Eb, group "Major Chords", shape "Root6") gives exactly four chords: Maj-Root6 [8, x, 5, 9], Maj-Fifth6 [8, x, 7, 10], Maj-Root6 [6, x, 3, 7] and Maj-Fifth6 [6, x, 5, 8] |

## Left out

- Tokenisation (`sequence.trim().split(/\s+/)`, src/App.jsx:388): the optimiser takes the tokens as a given sequence of strings.
- Rendering, audio and React state. This covers `FretboardDiagram`, `initializeAudio`, `playChord`, hooks, JSX and `setProgression`. They are layout, Web Audio I/O with floating-point frequencies, and UI plumbing. When no progression is produced, the model returns `None` where the handler returns early.
- `console.warn` diagnostics (src/App.jsx:131, 144, 392) are side effects and are not modelled. The one in `getFretForNote` (line 144) is proved unreachable by `Fretting.MissingNoteUnreachable`, and so is the flat re-check at lines 138-140 (`Fretting.FlatRecheckUnreachable`).
- The tables `rootNotes` and `stringNotes` (src/App.jsx:17-19) are not used by the engine and are not modelled; `stringNotes` only labels the strings in `FretboardDiagram` (src/App.jsx:313), which is rendering.
- Letter case is ASCII only. JavaScript's full Unicode `toUpperCase` and `toLowerCase` are not modelled, so a non-ASCII letter is left unchanged. `trim` uses the ECMAScript whitespace set exactly.
- Strings are sequences of code points, not UTF-16 code units. A name containing characters outside the Basic Multilingual Plane is out of scope.
- Tables are finite maps, not plain objects. A key such as `"__proto__"` that reads an inherited property in JavaScript is out of scope.
- An invalid string index, which JavaScript turns into `NaN` arithmetic, is excluded by a requires. Every catalog shape satisfies it.
- Transposer.ToneOf: a tag that is not "root", "third" or "fifth" goes to the `default` branch and anchors the root. That includes "seventh", which the 7th-Seventh6 shape uses (src/App.jsx:73). So that shape's reference string sounds the root, not the seventh, exactly as in the source.
- Transposer.TransposeShape: the switch is computed arithmetically, as `TargetFret`. `Transposer.AnchorFret` proves this equals what the source's `getFretForNote` calls on the scale names return.
- Optimizer.Leftmost: a muted low E string reads as fret 0, as `null` does in a JavaScript subtraction. An empty fret array also reads as 0, where JavaScript would read `undefined` and compare `NaN` movements. No catalog shape mutes that string or is empty.

=== FILE: catalog.dfy ===
/** The shape catalog: relative fret patterns grouped by chord quality. */
module Catalog {
  import opened Wrappers

  /** The reference point of a shape: the string whose fret the anchor
      note fixes, and that string's relative fret. */
  datatype RefPoint = RefPoint(stringIndex: int, fret: int)

  /** A chord shape: a relative fret per string, low E first (`None` for a
      string that is not played), its reference point, and the chord tone
      ("root", "third", "fifth", "seventh") the reference string carries. */
  datatype Shape = Shape(name: string, frets: seq<Option<int>>, root: RefPoint, rootInterval: string)

  /** Six strings, and a reference string that exists. */
  predicate ValidShape(s: Shape) {
    |s.frets| == 6 && 0 <= s.root.stringIndex < 6
  }

  predicate ValidGroup(shapes: seq<Shape>) {
    forall i :: 0 <= i < |shapes| ==> ValidShape(shapes[i])
  }

  const MajorChords: seq<Shape> := [
    Shape("Maj-Root6", [Some(0), None, Some(-3), Some(1), None, None], RefPoint(0, 0), "root"),
    Shape("Maj-Third6", [Some(0), None, Some(-2), Some(0), None, None], RefPoint(0, 0), "third"),
    Shape("Maj-Fifth6", [Some(0), None, Some(-1), Some(2), None, None], RefPoint(0, 0), "fifth")
  ]

  const Major7thChords: seq<Shape> := [
    Shape("7th-Root6", [Some(0), None, Some(-1), Some(-1), Some(0), None], RefPoint(0, 0), "root"),
    Shape("7th-Third6", [Some(0), None, Some(-2), Some(0), Some(0), None], RefPoint(0, 0), "third"),
    Shape("7th-Fifth6", [Some(0), None, Some(-1), Some(1), None, None], RefPoint(0, 0), "fifth"),
    Shape("7th-Seventh6", [Some(0), None, Some(-2), Some(-2), Some(-2), None], RefPoint(0, 0), "seventh")
  ]

  /** The fourth shape repeats the name of the third. */
  const SixChords: seq<Shape> := [
    Shape("6th-Root6", [Some(0), None, Some(-1), Some(1), Some(0), None], RefPoint(0, 0), "root"),
    Shape("6th-Third6", [Some(0), None, Some(-2), Some(0), Some(-2), None], RefPoint(0, 0), "third"),
    Shape("6th-Fifth6", [Some(0), None, Some(-1), Some(-1), Some(-2), None], RefPoint(0, 0), "fifth"),
    Shape("6th-Fifth6", [Some(0), None, Some(0), Some(0), Some(0), None], RefPoint(0, 0), "fifth")
  ]

  const ChordGroups: map<string, seq<Shape>> := map[
    "Major Chords" := MajorChords,
    "Major 7th Chords" := Major7thChords,
    "6 Chords" := SixChords
  ]

  /** Every offset of the shape is at least -11 semitones. */
  predicate OffsetsAboveOctave(s: Shape) {
    forall i :: 0 <= i < |s.frets| && s.frets[i].Some? ==> s.frets[i].value >= -11
  }

  /** Every catalog shape has six strings, uses the low E string as its
      reference with relative fret 0 there, and keeps its offsets within
      an octave below the reference. */
  lemma CatalogShapesAreRegular(group: string, i: int)
    requires group in ChordGroups && 0 <= i < |ChordGroups[group]|
    ensures var s := ChordGroups[group][i];
            ValidShape(s) && s.root == RefPoint(0, 0) && s.frets[0] == Some(0) && OffsetsAboveOctave(s)
  {
  }

  lemma CatalogGroupsAreValid(group: string)
    requires group in ChordGroups
    ensures ValidGroup(ChordGroups[group])
  {
    forall i | 0 <= i < |ChordGroups[group]| {
      CatalogShapesAreRegular(group, i);
    }
  }
}

=== FILE: fretting.dfy ===
/** `getFretForNote`: the fret in [0, 11] at which a string sounds a note. */
module Fretting {
  import opened Pitch

  /** No canonical name is a key of the flat table. */
  lemma CanonicalIsNotFlat(n: string)
    requires IsCanonical(n)
    ensures n !in FlatToSharp
  {
  }

  /** The last step of `getFretForNote`: the difference between the target
      pitch class and the open string's, plus 12 when it is negative. */
  function FretForPitch(pitch: int, stringIndex: int): (fret: int)
    requires 0 <= pitch < 12 && 0 <= stringIndex < 6
    ensures 0 <= fret < 12
    ensures (OpenStringNotes[stringIndex] + fret) % 12 == pitch
  {
    var fret := pitch - OpenStringNotes[stringIndex];
    if fret < 0 then fret + 12 else fret
  }

  /** `getFretForNote`, including its two defensive branches (a second flat
      conversion and a fallback to C for a name missing from the scale),
      which `FlatRecheckUnreachable` and `MissingNoteUnreachable` show can
      never be taken. */
  function GetFretForNote(note: string, stringIndex: int): (fret: int)
    requires 0 <= stringIndex < 6
    ensures 0 <= fret < 12
    ensures (OpenStringNotes[stringIndex] + fret) % 12 == PitchIndex(NormalizeNote(note))
  {
    var normalized := NormalizeNote(note);
    CanonicalIsNotFlat(normalized);
    var recheck := match Lookup(FlatToSharp, normalized) case Some(sharp) => sharp case None => normalized;
    var found := ScaleIndexOf(recheck);
    var targetNote := if found == -1 then 0 else found;
    FretForPitch(targetNote, stringIndex)
  }

  /** The second flat conversion never fires: a normalised name is never a
      flat spelling. */
  lemma FlatRecheckUnreachable(note: string)
    ensures NormalizeNote(note) !in FlatToSharp
  {
    CanonicalIsNotFlat(NormalizeNote(note));
  }

  /** The "not found, using C" fallback never fires: a normalised name is
      always found in the scale. */
  lemma MissingNoteUnreachable(note: string)
    ensures ScaleIndexOf(NormalizeNote(note)) != -1
  {
  }

  /** The fret is the only one in [0, 11] at which the string sounds the
      pitch class. */
  lemma FretIsUnique(pitch: int, stringIndex: int, f: int)
    requires 0 <= pitch < 12 && 0 <= stringIndex < 6
    requires 0 <= f < 12
    requires (OpenStringNotes[stringIndex] + f) % 12 == pitch
    ensures f == FretForPitch(pitch, stringIndex)
  {
  }

  /** On a canonical name the whole of `getFretForNote` reduces to its last
      step. */
  lemma FretForCanonical(k: int, stringIndex: int)
    requires 0 <= k < 12 && 0 <= stringIndex < 6
    ensures GetFretForNote(SemitoneNotes[k], stringIndex) == FretForPitch(k, stringIndex)
  {
    NormalizeCanonicalAt(k);
    PitchIndexAt(k);
    FretIsUnique(k, stringIndex, GetFretForNote(SemitoneNotes[k], stringIndex));
  }
}

=== FILE: optimizer.dfy ===
/** `generateProgression`: voices a sequence of chord roots with the shapes
    of one group, keeping the hand close to where the previous chord was. */
module Optimizer {
  import opened Wrappers
  import opened Pitch
  import opened Catalog
  import opened Transposer

  /** One voiced chord: its label (`caption`), absolute frets, and the shape used. */
  datatype Entry = Entry(caption: string, frets: seq<Option<int>>, shapeName: string)

  /** The label of a chord: the token as typed, then the shape name in
      parentheses. */
  function Label(token: string, shapeName: string): string {
    token + " (" + shapeName + ")"
  }

  /** `shapes.find(s => s.name === name)`: the position of the first shape
      with the name, if any. */
  function FindShape(shapes: seq<Shape>, name: string): (r: Option<nat>)
    ensures r.Some? ==> r.value < |shapes| && shapes[r.value].name == name
    ensures r.Some? ==> forall j :: 0 <= j < r.value ==> shapes[j].name != name
    ensures r.None? <==> forall j :: 0 <= j < |shapes| ==> shapes[j].name != name
  {
    if |shapes| == 0 then None
    else if shapes[0].name == name then Some(0)
    else match FindShape(shapes[1..], name)
      case None => None
      case Some(i) => Some(i + 1)
  }

  /** The shape of the first chord: the selected one when the group has it,
      otherwise the group's first shape. */
  function StartShape(shapes: seq<Shape>, selected: string): (s: Shape)
    requires |shapes| > 0
    ensures (exists j :: 0 <= j < |shapes| && shapes[j].name == selected) ==> s.name == selected
    ensures (forall j :: 0 <= j < |shapes| ==> shapes[j].name != selected) ==> s == shapes[0]
    ensures s in shapes
    ensures FindShape(shapes, selected).Some? ==> s == shapes[FindShape(shapes, selected).value]
  {
    match FindShape(shapes, selected)
    case Some(i) => shapes[i]
    case None => shapes[0]
  }

  /** The fret of the low E string, the position the optimiser compares. A
      muted low string reads as 0, as `null` does in a JavaScript
      subtraction. */
  function Leftmost(frets: seq<Option<int>>): int {
    if |frets| > 0 && frets[0].Some? then frets[0].value else 0
  }

  function Abs(x: int): nat {
    if x < 0 then -x else x
  }

  /** `b` is the first position holding the least value of `d`. */
  predicate FirstMinimum(d: seq<int>, b: int) {
    0 <= b < |d|
    && (forall j :: 0 <= j < |d| ==> d[b] <= d[j])
    && (forall j :: 0 <= j < b ==> d[b] < d[j])
  }

  /** The `reduce` that picks the best candidate: a left fold that replaces
      the current best only on a strictly smaller value. */
  function ReduceBest(d: seq<int>): (b: nat)
    requires |d| > 0
    ensures FirstMinimum(d, b)
  {
    if |d| == 1 then 0
    else
      var b := ReduceBest(d[..|d| - 1]);
      assert forall j :: 0 <= j < |d| - 1 ==> d[..|d| - 1][j] == d[j];
      if d[|d| - 1] < d[b] then |d| - 1 else b
  }

  /** A sequence has at most one first minimum. */
  lemma FirstMinimumUnique(d: seq<int>, b: int, c: int)
    requires FirstMinimum(d, b) && FirstMinimum(d, c)
    ensures b == c
  {
    assert d[b] <= d[c] && d[c] <= d[b];
  }

  /** A chord voiced with one shape: labelled with the token as typed, and
      transposed to the token's normalised root. */
  function Voicing(shape: Shape, token: string): Entry
    requires 0 <= shape.root.stringIndex < 6
  {
    Entry(Label(token, shape.name), TransposeShape(shape, NormalizeNote(token)), shape.name)
  }

  /** How far the low E string moves from one chord to the next. */
  function Move(prev: Entry, next: Entry): nat {
    Abs(Leftmost(next.frets) - Leftmost(prev.frets))
  }

  /** The first chord, voiced with the start shape. */
  function FirstEntry(shapes: seq<Shape>, selected: string, token: string): (e: Entry)
    requires |shapes| > 0 && ValidGroup(shapes)
    ensures e.caption == Label(token, e.shapeName)
    ensures exists j :: 0 <= j < |shapes| && e == Voicing(shapes[j], token)
    ensures FindShape(shapes, selected).Some? ==> e == Voicing(shapes[FindShape(shapes, selected).value], token)
    ensures FindShape(shapes, selected).None? ==> e == Voicing(shapes[0], token)
  {
    Voicing(StartShape(shapes, selected), token)
  }

  /** Every shape of the group voiced for the token, in the group's order:
      the `possibleShapes` of one pass of the optimising loop. */
  function Candidates(shapes: seq<Shape>, token: string): (c: seq<Entry>)
    requires ValidGroup(shapes)
    ensures |c| == |shapes|
    ensures forall j {:trigger Voicing(shapes[j], token)} :: 0 <= j < |shapes| ==> c[j] == Voicing(shapes[j], token)
  {
    seq(|shapes|, j requires 0 <= j < |shapes| => Voicing(shapes[j], token))
  }

  /** The movement from `prev` to each candidate. */
  function Moves(cands: seq<Entry>, prev: Entry): (d: seq<int>)
    ensures |d| == |cands|
    ensures forall j :: 0 <= j < |cands| ==> d[j] == Move(prev, cands[j])
  {
    seq(|cands|, j requires 0 <= j < |cands| => Move(prev, cands[j]))
  }

  /** The greedy choice, stated directly: `next` is the first candidate, in
      order, among those that move the low E string least from `prev`. */
  ghost predicate IsBestAmong(cands: seq<Entry>, prev: Entry, next: Entry) {
    exists b :: 0 <= b < |cands| && next == cands[b]
      && (forall j :: 0 <= j < |cands| ==> Move(prev, next) <= Move(prev, cands[j]))
      && (forall j :: 0 <= j < b ==> Move(prev, next) < Move(prev, cands[j]))
  }

  /** The `reduce` over the candidates of one pass. */
  function Best(cands: seq<Entry>, prev: Entry): (next: Entry)
    requires |cands| > 0
    ensures IsBestAmong(cands, prev, next)
  {
    var b := ReduceBest(Moves(cands, prev));
    assert FirstMinimum(Moves(cands, prev), b);
    cands[b]
  }

  /** The best candidate is unique. */
  lemma BestIsUnique(cands: seq<Entry>, prev: Entry, next: Entry)
    requires IsBestAmong(cands, prev, next)
    ensures next == Best(cands, prev)
  {
    var d := Moves(cands, prev);
    var b :| 0 <= b < |cands| && next == cands[b]
      && (forall j :: 0 <= j < |cands| ==> Move(prev, next) <= Move(prev, cands[j]))
      && (forall j :: 0 <= j < b ==> Move(prev, next) < Move(prev, cands[j]));
    assert FirstMinimum(d, b);
    FirstMinimumUnique(d, b, ReduceBest(d));
  }

  /** The optimising loop over precomputed candidate lists: starting from
      `start`, each chord is the best candidate of its list measured from
      the chord before it. */
  function Walk(start: Entry, options: seq<seq<Entry>>): (r: seq<Entry>)
    requires forall i :: 0 <= i < |options| ==> |options[i]| > 0
    ensures |r| == |options| + 1 && r[0] == start
    ensures forall i :: 0 <= i < |options| ==> IsBestAmong(options[i], r[i], r[i + 1])
    decreases |options|
  {
    if |options| == 0 then [start]
    else
      var n := |options| - 1;
      var w := Walk(start, options[..n]);
      assert forall i :: 0 <= i < n ==> options[..n][i] == options[i];
      w + [Best(options[n], w[n])]
  }

  /** A walk is determined by its start and candidate lists: any sequence
      that makes the greedy choice at every step is the walk. */
  lemma {:induction false} WalkIsUnique(start: Entry, options: seq<seq<Entry>>, r: seq<Entry>)
    requires forall i :: 0 <= i < |options| ==> |options[i]| > 0
    requires |r| == |options| + 1 && r[0] == start
    requires forall i :: 0 <= i < |options| ==> IsBestAmong(options[i], r[i], r[i + 1])
    ensures r == Walk(start, options)
    decreases |options|
  {
    if |options| > 0 {
      var n := |options| - 1;
      assert forall i :: 0 <= i < n ==> options[..n][i] == options[i];
      WalkIsUnique(start, options[..n], r[..n + 1]);
      BestIsUnique(options[n], r[n], r[n + 1]);
      assert r == r[..n + 1] + [r[n + 1]];
    }
  }

  /** The candidate lists of the passes after the first chord. */
  function Passes(shapes: seq<Shape>, tokens: seq<string>): (options: seq<seq<Entry>>)
    requires |tokens| > 0 && |shapes| > 0 && ValidGroup(shapes)
    ensures |options| == |tokens| - 1
    ensures forall i :: 0 <= i < |options| ==> |options[i]| > 0
    ensures forall i :: 0 <= i < |options| ==> options[i] == Candidates(shapes, tokens[i + 1])
  {
    seq(|tokens| - 1, i requires 0 <= i < |tokens| - 1 => Candidates(shapes, tokens[i + 1]))
  }

  /** The voiced progression: the first chord in the start shape, then the
      optimising loop. `generateProgression` first voices every chord in the start
      shape and then overwrites all but the first, each pass reading the
      entry the pass before it wrote; only the first of those initial
      voicings is ever read. */
  function Progression(shapes: seq<Shape>, selected: string, tokens: seq<string>): (r: seq<Entry>)
    requires |shapes| > 0 && ValidGroup(shapes)
    ensures |r| == |tokens|
    ensures |tokens| > 0 ==> r[0] == FirstEntry(shapes, selected, tokens[0])
    ensures forall i :: 1 <= i < |tokens| ==> IsBestAmong(Candidates(shapes, tokens[i]), r[i - 1], r[i])
  {
    if |tokens| == 0 then []
    else Walk(FirstEntry(shapes, selected, tokens[0]), Passes(shapes, tokens))
  }

  /** The progression is the only sequence that starts with the start shape
      and makes the greedy choice at every later chord. */
  lemma ProgressionIsUnique(shapes: seq<Shape>, selected: string, tokens: seq<string>, r: seq<Entry>)
    requires |shapes| > 0 && ValidGroup(shapes)
    requires |r| == |tokens|
    requires |tokens| > 0 ==> r[0] == FirstEntry(shapes, selected, tokens[0])
    requires forall i :: 1 <= i < |tokens| ==> IsBestAmong(Candidates(shapes, tokens[i]), r[i - 1], r[i])
    ensures r == Progression(shapes, selected, tokens)
  {
    if |tokens| > 0 {
      var options := Passes(shapes, tokens);
      WalkIsUnique(FirstEntry(shapes, selected, tokens[0]), options, r);
    }
  }

  /** `generateProgression` for a group's shapes: nothing when the group
      has no shapes, otherwise the progression: the first chord in the start
      shape and the greedy choice at every later one. */
  function GenerateProgression(shapes: seq<Shape>, selected: string, tokens: seq<string>): (r: Option<seq<Entry>>)
    requires ValidGroup(shapes)
    ensures r.None? <==> |shapes| == 0
    ensures r.Some? ==> |r.value| == |tokens|
    ensures r.Some? && |tokens| > 0 ==> r.value[0] == FirstEntry(shapes, selected, tokens[0])
    ensures r.Some? ==> forall i :: 1 <= i < |tokens| ==> IsBestAmong(Candidates(shapes, tokens[i]), r.value[i - 1], r.value[i])
  {
    if |shapes| == 0 then None
    else Some(Progression(shapes, selected, tokens))
  }

  /** `generateProgression` for a selected group name: nothing for a name
      that is not a group of the catalog. */
  function GenerateFromCatalog(group: string, selected: string, tokens: seq<string>): (r: Option<seq<Entry>>)
    ensures r.None? <==> group !in ChordGroups
  {
    if group !in ChordGroups then None
    else
      CatalogGroupsAreValid(group);
      assert |ChordGroups[group]| > 0;
      GenerateProgression(ChordGroups[group], selected, tokens)
  }
}

=== FILE: pitch.dfy ===
/** The pitch model: the note-name tables, `normalizeNote`, which resolves
    a free-form note name to one of the twelve sharp-based names, and the
    display helpers `displayNoteLabel` and `noteLabel`. */
module Pitch {
  import opened Wrappers
  import opened Text

  /** The chromatic scale from C, sharp spellings; the position of a name is
      its pitch class. */
  const SemitoneNotes: seq<string> :=
    ["C", "C#", "D", "D#", "E", "F", "F#", "G", "G#", "A", "A#", "B"]

  /** Pitch classes of the open strings in standard tuning, low E to high e. */
  const OpenStringNotes: seq<int> := [4, 9, 2, 7, 11, 4]

  /** Every spelling with at most one accidental, mapped to its sharp-based
      name: the fallback table of `normalizeNote`. */
  const EnharmonicMap: map<string, string> := map[
    "Cb" := "B", "Db" := "C#", "Eb" := "D#", "Fb" := "E", "Gb" := "F#", "Ab" := "G#", "Bb" := "A#",
    "B#" := "C", "C#" := "C#", "D#" := "D#", "E#" := "F", "F#" := "F#", "G#" := "G#", "A#" := "A#",
    "C" := "C", "D" := "D", "E" := "E", "F" := "F", "G" := "G", "A" := "A", "B" := "B"
  ]

  /** The five black-key flats and their sharp names. */
  const FlatToSharp: map<string, string> :=
    map["Db" := "C#", "Eb" := "D#", "Gb" := "F#", "Ab" := "G#", "Bb" := "A#"]

  /** The inverse of `FlatToSharp`, used only for display. */
  const SharpToFlat: map<string, string> :=
    map["C#" := "Db", "D#" := "Eb", "F#" := "Gb", "G#" := "Ab", "A#" := "Bb"]

  /** A table lookup that yields `None` for a missing key, as a JavaScript
      property read yields `undefined`. */
  function Lookup(table: map<string, string>, key: string): (r: Option<string>)
    ensures r.Some? <==> key in table
    ensures r.Some? ==> r.value == table[key]
  {
    if key in table then Some(table[key]) else None
  }

  predicate IsCanonical(n: string) {
    n in SemitoneNotes
  }

  /** `semitoneNotes.indexOf(n)`: the position of `n` in the scale, or -1
      when `n` is not a canonical name. */
  function ScaleIndexOf(n: string): (r: int)
    ensures -1 <= r < 12
    ensures r == -1 <==> !IsCanonical(n)
    ensures r >= 0 ==> SemitoneNotes[r] == n
  {
    if n == "C" then 0
    else if n == "C#" then 1
    else if n == "D" then 2
    else if n == "D#" then 3
    else if n == "E" then 4
    else if n == "F" then 5
    else if n == "F#" then 6
    else if n == "G" then 7
    else if n == "G#" then 8
    else if n == "A" then 9
    else if n == "A#" then 10
    else if n == "B" then 11
    else -1
  }

  /** The pitch class of a canonical name. */
  function PitchIndex(n: string): (p: int)
    requires IsCanonical(n)
    ensures 0 <= p < 12 && SemitoneNotes[p] == n
  {
    ScaleIndexOf(n)
  }

  /** Distinct positions hold distinct names, so a name's position is
      recovered from the name. */
  lemma PitchIndexAt(k: int)
    requires 0 <= k < 12
    ensures PitchIndex(SemitoneNotes[k]) == k
  {
  }

  /** The cleaning steps of `normalizeNote`: trim, replace the first flat
      glyph by `b` and the first sharp glyph by `#`, then capitalise. */
  function Clean(note: string): string {
    Capitalize(ReplaceFirst(ReplaceFirst(Trim(note), '♭', 'b'), '♯', '#'))
  }

  /** `normalizeNote`: total, and always one of the twelve canonical names;
      an unrecognised name becomes "C". */
  function NormalizeNote(note: string): (r: string)
    ensures IsCanonical(r)
  {
    var cleaned := Clean(note);
    if cleaned in FlatToSharp then FlatToSharp[cleaned]
    else if cleaned in SemitoneNotes then cleaned
    else if cleaned in EnharmonicMap && EnharmonicMap[cleaned] in SemitoneNotes then EnharmonicMap[cleaned]
    else "C"
  }

  /** The pitch class `normalizeNote` resolves a name to. */
  function RootPitch(note: string): (p: int)
    ensures 0 <= p < 12 && SemitoneNotes[p] == NormalizeNote(note)
  {
    PitchIndex(NormalizeNote(note))
  }

  // ---------------------------------------------------------------------
  // An independent reference: the pitch class a spelling denotes.

  /** Pitch class of a natural letter. */
  function LetterPitch(c: char): Option<int> {
    match c
    case 'C' => Some(0)
    case 'D' => Some(2)
    case 'E' => Some(4)
    case 'F' => Some(5)
    case 'G' => Some(7)
    case 'A' => Some(9)
    case 'B' => Some(11)
    case _ => None
  }

  /** The pitch class a cleaned name spells: a letter, optionally followed
      by `#` (one semitone up) or `b` (one semitone down), modulo 12. */
  function SpelledPitch(name: string): (p: Option<int>)
    ensures p.Some? ==> 0 <= p.value < 12
  {
    if |name| == 0 || |name| > 2 || LetterPitch(name[0]).None? then None
    else if |name| == 1 then LetterPitch(name[0])
    else if name[1] == '#' then Some((LetterPitch(name[0]).value + 1) % 12)
    else if name[1] == 'b' then Some((LetterPitch(name[0]).value + 11) % 12)
    else None
  }

  /** Each key of the enharmonic table spells exactly the pitch class of the
      name it maps to, and the table has a key for every spelling. */
  lemma EnharmonicMapIsSpelling(name: string)
    ensures name in EnharmonicMap <==> SpelledPitch(name).Some?
    ensures name in EnharmonicMap ==>
              EnharmonicMap[name] == SemitoneNotes[SpelledPitch(name).value]
  {
    if name in EnharmonicMap {
      EnharmonicKeysAreSpellings(name);
    } else if SpelledPitch(name).Some? {
      SpellingsAreEnharmonicKeys(name);
    }
  }

  lemma EnharmonicKeysAreSpellings(name: string)
    requires name in EnharmonicMap
    ensures SpelledPitch(name).Some?
    ensures EnharmonicMap[name] == SemitoneNotes[SpelledPitch(name).value]
  {
    if |name| == 1 {
      NaturalKeysAreSpellings(name);
    } else if name[1] == '#' {
      SharpKeysAreSpellings(name);
    } else {
      FlatKeysAreSpellings(name);
    }
  }

  lemma NaturalKeysAreSpellings(name: string)
    requires name in EnharmonicMap && |name| == 1
    ensures SpelledPitch(name).Some?
    ensures EnharmonicMap[name] == SemitoneNotes[SpelledPitch(name).value]
  {
  }

  lemma SharpKeysAreSpellings(name: string)
    requires name in EnharmonicMap && |name| == 2 && name[1] == '#'
    ensures SpelledPitch(name).Some?
    ensures EnharmonicMap[name] == SemitoneNotes[SpelledPitch(name).value]
  {
  }

  lemma FlatKeysAreSpellings(name: string)
    requires name in EnharmonicMap && |name| == 2 && name[1] == 'b'
    ensures SpelledPitch(name).Some?
    ensures EnharmonicMap[name] == SemitoneNotes[SpelledPitch(name).value]
  {
  }

  lemma SpellingsAreEnharmonicKeys(name: string)
    requires SpelledPitch(name).Some?
    ensures name in EnharmonicMap
  {
    if |name| == 1 {
      assert name == [name[0]];
    } else if name[1] == '#' {
      assert name == [name[0], '#'];
    } else {
      assert name == [name[0], 'b'];
    }
  }

  /** The flat table and the canonical names are consistent with the
      enharmonic table. */
  lemma TablesAgree(name: string)
    ensures name in FlatToSharp ==> name in EnharmonicMap && FlatToSharp[name] == EnharmonicMap[name]
    ensures name in SemitoneNotes ==> name in EnharmonicMap && EnharmonicMap[name] == name
  {
  }

  /** `normalizeNote` agrees with the spelling reference on every input:
      a cleaned name that spells a pitch class becomes that pitch class's
      canonical name, and every other input becomes "C". */
  lemma NormalizeMatchesSpelling(note: string)
    ensures NormalizeNote(note) ==
              match SpelledPitch(Clean(note))
              case Some(p) => SemitoneNotes[p]
              case None => "C"
  {
    var c := Clean(note);
    EnharmonicMapIsSpelling(c);
    TablesAgree(c);
  }

  // ---------------------------------------------------------------------
  // Consequences for the spellings users type.

  /** Accidental marks accepted after the letter, in any case and in either
      ASCII or glyph form, with their shift in semitones. */
  function AccidentalShift(mark: string): Option<int> {
    if |mark| == 0 then Some(0)
    else if |mark| > 1 then None
    else if mark[0] == '#' || mark[0] == '♯' then Some(1)
    else if mark[0] == 'b' || mark[0] == 'B' || mark[0] == '♭' then Some(-1)
    else None
  }

  /** A note letter A-G, in either case. */
  predicate IsNoteLetter(c: char) {
    'A' <= UpperAscii(c) <= 'G'
  }

  /** The canonical ASCII form of an accepted accidental mark. */
  function MarkAscii(mark: string): string {
    if |mark| == 0 then mark
    else if mark[0] == '♯' then "#"
    else if mark[0] == 'b' || mark[0] == 'B' || mark[0] == '♭' then "b"
    else mark
  }

  /** A mark with its glyph, if any, replaced by the ASCII character. */
  function DeGlyph(mark: string): string {
    if |mark| == 1 && mark[0] == '♭' then "b"
    else if |mark| == 1 && mark[0] == '♯' then "#"
    else mark
  }

  lemma GlyphsReplaced(letter: char, mark: string)
    requires IsNoteLetter(letter) && AccidentalShift(mark).Some?
    ensures ReplaceFirst(ReplaceFirst([letter] + mark, '♭', 'b'), '♯', '#') == [letter] + DeGlyph(mark)
  {
    var t := [letter] + mark;
    if |mark| == 1 && mark[0] == '♭' {
      assert ReplaceFirst(t, '♭', 'b') == [letter, 'b'];
      ReplaceFirstAbsent([letter, 'b'], '♯', '#');
    } else if |mark| == 1 && mark[0] == '♯' {
      ReplaceFirstAbsent(t, '♭', 'b');
      assert ReplaceFirst(t, '♯', '#') == [letter, '#'];
    } else {
      ReplaceFirstAbsent(t, '♭', 'b');
      ReplaceFirstAbsent(t, '♯', '#');
    }
  }

  /** Cleaning a letter followed by an accepted mark yields the upper-case
      letter followed by the ASCII mark. */
  lemma CleanSpelled(letter: char, mark: string)
    requires IsNoteLetter(letter) && AccidentalShift(mark).Some?
    ensures Clean([letter] + mark) == [UpperAscii(letter)] + MarkAscii(mark)
  {
    CleanBeforeCapitalize(letter, mark);
    CapitalizeDeGlyphed(letter, mark);
  }

  lemma CleanBeforeCapitalize(letter: char, mark: string)
    requires IsNoteLetter(letter) && AccidentalShift(mark).Some?
    ensures Clean([letter] + mark) == Capitalize([letter] + DeGlyph(mark))
  {
    var t := [letter] + mark;
    var t1 := Trim(t);
    assert t1 == t by { TrimmedSpelling(letter, mark); }
    var t2 := ReplaceFirst(ReplaceFirst(t1, '♭', 'b'), '♯', '#');
    assert t2 == [letter] + DeGlyph(mark) by { GlyphsReplaced(letter, mark); }
  }

  lemma CapitalizeDeGlyphed(letter: char, mark: string)
    requires IsNoteLetter(letter) && AccidentalShift(mark).Some?
    ensures Capitalize([letter] + DeGlyph(mark)) == [UpperAscii(letter)] + MarkAscii(mark)
  {
    var m := DeGlyph(mark);
    assert MarkAscii(m) == MarkAscii(mark);
    CapitalizeSpelled(letter, m);
  }

  lemma TrimmedSpelling(letter: char, mark: string)
    requires IsNoteLetter(letter) && AccidentalShift(mark).Some?
    ensures Trim([letter] + mark) == [letter] + mark
  {
    var t := [letter] + mark;
    assert IsTrimmed(t);
    TrimPadded("", t, "");
    assert "" + t + "" == t;
  }

  lemma CapitalizeSpelled(letter: char, m: string)
    requires IsNoteLetter(letter)
    requires |m| <= 1 && (|m| == 1 ==> m[0] == '#' || m[0] == 'b' || m[0] == 'B')
    ensures Capitalize([letter] + m) == [UpperAscii(letter)] + MarkAscii(m)
  {
  }

  /** The pitch class of a cleaned spelling is the letter's pitch class
      shifted by the accidental. */
  lemma SpelledPitchOfMark(letter: char, mark: string)
    requires IsNoteLetter(letter) && AccidentalShift(mark).Some?
    ensures SpelledPitch([UpperAscii(letter)] + MarkAscii(mark)) ==
              Some((LetterPitch(UpperAscii(letter)).value + AccidentalShift(mark).value + 12) % 12)
  {
  }

  /** A letter A-G in either case, an optional accidental, and any
      surrounding whitespace normalise to the pitch class they spell. */
  lemma NormalizeSpelledNote(pre: string, letter: char, mark: string, post: string)
    requires AllSpace(pre) && AllSpace(post)
    requires IsNoteLetter(letter) && AccidentalShift(mark).Some?
    ensures NormalizeNote(pre + [letter] + mark + post) ==
              SemitoneNotes[(LetterPitch(UpperAscii(letter)).value + AccidentalShift(mark).value + 12) % 12]
  {
    var t := [letter] + mark;
    var note := pre + [letter] + mark + post;
    var c := Clean(note);
    assert c == [UpperAscii(letter)] + MarkAscii(mark) by {
      assert note == pre + t + post;
      assert IsTrimmed(t);
      TrimPadded(pre, t, post);
      CleanSpelled(letter, mark);
    }
    SpelledPitchOfMark(letter, mark);
    NormalizeMatchesSpelling(note);
  }

  /** A bare letter-and-mark spelling, without surrounding whitespace,
      whose pitch class `p` is given. */
  lemma NormalizeLetterMark(letter: char, mark: string, p: int)
    requires IsNoteLetter(letter) && AccidentalShift(mark).Some?
    requires p == (LetterPitch(UpperAscii(letter)).value + AccidentalShift(mark).value + 12) % 12
    ensures NormalizeNote([letter] + mark) == SemitoneNotes[p]
  {
    assert [letter] + mark == "" + [letter] + mark + "";
    NormalizeSpelledNote("", letter, mark, "");
  }

  /** Every canonical name is a letter, optionally followed by `#`, that
      spells its own position in the scale. */
  lemma CanonicalIsSpelling(k: int)
    requires 0 <= k < 12
    ensures |SemitoneNotes[k]| > 0
    ensures IsNoteLetter(SemitoneNotes[k][0])
    ensures AccidentalShift(SemitoneNotes[k][1..]).Some?
    ensures k == (LetterPitch(UpperAscii(SemitoneNotes[k][0])).value
                  + AccidentalShift(SemitoneNotes[k][1..]).value + 12) % 12
  {
  }

  lemma NormalizeCanonicalAt(k: int)
    requires 0 <= k < 12
    ensures NormalizeNote(SemitoneNotes[k]) == SemitoneNotes[k]
  {
    var n := SemitoneNotes[k];
    CanonicalIsSpelling(k);
    var letter, mark := n[0], n[1..];
    assert n == [letter] + mark;
    NormalizeLetterMark(letter, mark, k);
  }

  /** Idempotent on canonical names. */
  lemma NormalizeCanonical(n: string)
    requires IsCanonical(n)
    ensures NormalizeNote(n) == n
  {
    NormalizeCanonicalAt(PitchIndex(n));
  }

  lemma NormalizeIdempotent(note: string)
    ensures NormalizeNote(NormalizeNote(note)) == NormalizeNote(note)
  {
    NormalizeCanonical(NormalizeNote(note));
  }

  /** The five flat spellings D, E, G, A and B flat, in either letter case
      and with `b`, `B` or the flat glyph, become their sharp names. */
  lemma FlatSpellingsBecomeSharps(letter: char, mark: string)
    requires UpperAscii(letter) in "DEGAB"
    requires AccidentalShift(mark) == Some(-1)
    ensures NormalizeNote([letter] + mark) == FlatToSharp[[UpperAscii(letter), 'b']]
  {
    var u := UpperAscii(letter);
    var k := (LetterPitch(u).value + 11) % 12;
    assert [u, 'b'] in FlatToSharp && FlatToSharp[[u, 'b']] == SemitoneNotes[k];
    NormalizeLetterMark(letter, mark, k);
  }

  /** The spellings that cross the B-C and E-F boundaries resolve through
      the enharmonic table: C flat is B, F flat is E, B sharp is C and E
      sharp is F, whatever the case of the letter. */
  lemma BoundarySpellings(letter: char, mark: string)
    requires IsNoteLetter(letter)
    requires (UpperAscii(letter) in "CF" && AccidentalShift(mark) == Some(-1))
          || (UpperAscii(letter) in "BE" && AccidentalShift(mark) == Some(1))
    ensures NormalizeNote([letter] + mark) ==
              match UpperAscii(letter)
              case 'C' => "B"
              case 'F' => "E"
              case 'B' => "C"
              case _ => "F"
  {
    var u := UpperAscii(letter);
    var k := (LetterPitch(u).value + AccidentalShift(mark).value + 12) % 12;
    assert SemitoneNotes[k] == match u case 'C' => "B" case 'F' => "E" case 'B' => "C" case _ => "F";
    NormalizeLetterMark(letter, mark, k);
  }

  /** Input that spells no note, such as "H" or the empty string, falls
      back to "C" instead of failing. */
  lemma UnrecognisedBecomesC(note: string)
    requires SpelledPitch(Clean(note)).None?
    ensures NormalizeNote(note) == "C"
  {
    NormalizeMatchesSpelling(note);
  }

  lemma UnrecognisedLetter()
    ensures NormalizeNote("H") == "C"
  {
    assert Clean("H") == "H" by {
      TrimPadded("", "H", "");
      assert "" + "H" + "" == "H";
    }
    UnrecognisedBecomesC("H");
  }

  lemma UnrecognisedEmpty()
    ensures NormalizeNote("") == "C"
  {
    UnrecognisedBecomesC("");
  }

  // ---------------------------------------------------------------------
  // Display labels.

  /** `displayNoteLabel`: the flat spelling of a black key when flats are
      preferred, the name unchanged otherwise. */
  function DisplayNoteLabel(note: string, preferFlat: bool): (r: string)
    ensures !preferFlat ==> r == note
    ensures preferFlat && note in SharpToFlat ==> r == SharpToFlat[note]
    ensures r != note ==> note in SharpToFlat && r == SharpToFlat[note]
  {
    if preferFlat && note in SharpToFlat then SharpToFlat[note] else note
  }

  /** Displaying a canonical name and normalising the label gives the name
      back, with or without the flat preference. */
  lemma DisplayRoundTripAt(k: int, preferFlat: bool)
    requires 0 <= k < 12
    ensures NormalizeNote(DisplayNoteLabel(SemitoneNotes[k], preferFlat)) == SemitoneNotes[k]
  {
    var n := SemitoneNotes[k];
    if preferFlat && n in SharpToFlat {
      var f := SharpToFlat[n];
      assert f == [f[0]] + "b" && IsNoteLetter(f[0]);
      NormalizeLetterMark(f[0], "b", k);
    } else {
      NormalizeCanonicalAt(k);
    }
  }

  /** A label differs from the canonical name exactly when flats are
      preferred and the note is a black key, and it always normalises back. */
  lemma DisplayLabelAt(k: int, preferFlat: bool)
    requires 0 <= k < 12
    ensures var shown := DisplayNoteLabel(SemitoneNotes[k], preferFlat);
            && (shown != SemitoneNotes[k] <==> preferFlat && SemitoneNotes[k] in SharpToFlat)
            && NormalizeNote(shown) == SemitoneNotes[k]
  {
    var n := SemitoneNotes[k];
    assert n in SharpToFlat ==> SharpToFlat[n] != n;
    DisplayRoundTripAt(k, preferFlat);
  }

  lemma DisplayRoundTrip(n: string)
    requires IsCanonical(n)
    ensures DisplayNoteLabel(n, false) == n
    ensures NormalizeNote(DisplayNoteLabel(n, true)) == n
  {
    DisplayRoundTripAt(PitchIndex(n), true);
  }

  /** JavaScript's `x % 12`, whose result takes the sign of the dividend. */
  function JsRemainder12(a: int): (r: int)
    ensures a >= 0 ==> r == a % 12
    ensures a < 0 ==> -12 < r <= 0 && (a % 12 == 0 <==> r == 0)
    ensures a < 0 ==> r == (if a % 12 == 0 then 0 else a % 12 - 12)
  {
    if a >= 0 then a % 12 else -((-a) % 12)
  }

  /** `rootChord && /b/.test(rootChord)`: a missing chord name never prefers
      flats; otherwise flats are preferred when the name contains `b`. */
  predicate PreferFlat(rootChord: Option<string>) {
    rootChord.Some? && 'b' in rootChord.value
  }

  /** `noteLabel`: the name of the note sounded on a string at a fret. A
      negative remainder indexes outside the scale, where `noteLabel` yields
      `undefined`; that case is `None`. */
  function NoteLabel(stringIdx: int, fret: int, rootChord: Option<string>): (r: Option<string>)
    requires 0 <= stringIdx < 6
    ensures var midi := OpenStringNotes[stringIdx] + fret;
            r.Some? <==> (midi >= 0 || midi % 12 == 0)
    ensures r.Some? ==> NormalizeNote(r.value) == SemitoneNotes[(OpenStringNotes[stringIdx] + fret) % 12]
    ensures r.Some? ==>
              (r.value != SemitoneNotes[(OpenStringNotes[stringIdx] + fret) % 12] <==>
               PreferFlat(rootChord) && SemitoneNotes[(OpenStringNotes[stringIdx] + fret) % 12] in SharpToFlat)
    ensures r.Some? && PreferFlat(rootChord) && SemitoneNotes[(OpenStringNotes[stringIdx] + fret) % 12] in SharpToFlat ==>
              r.value == SharpToFlat[SemitoneNotes[(OpenStringNotes[stringIdx] + fret) % 12]]
  {
    var midiValue := OpenStringNotes[stringIdx] + fret;
    var index := JsRemainder12(midiValue);
    if index < 0 then None
    else
      var note := SemitoneNotes[index];
      assert index == midiValue % 12;
      assert midiValue >= 0 || midiValue % 12 == 0;
      DisplayLabelAt(index, PreferFlat(rootChord));
      Some(DisplayNoteLabel(note, PreferFlat(rootChord)))
  }
}

=== FILE: scenarios.dfy ===
/** The default practice progression, worked through the model: the roots
    C, F, B flat and E flat voiced with the major shapes, starting from the
    selected shape name "Root6", which no group contains. */
module Scenarios {
  import opened Wrappers
  import opened Text
  import opened Pitch
  import opened Fretting
  import opened Catalog
  import opened Transposer
  import opened Optimizer

  lemma RootPitchAt(k: int)
    requires 0 <= k < 12
    ensures RootPitch(SemitoneNotes[k]) == k
  {
    NormalizeCanonicalAt(k);
    PitchIndexAt(k);
  }

  /** A transposition computed from its two halves: the target fret and
      the placement. */
  lemma Transposed(shape: Shape, note: string, k: int, t: int, expected: seq<Option<int>>)
    requires 0 <= shape.root.stringIndex < 6 && RootPitch(note) == k
    requires FretForPitch(AnchorPitch(ToneOf(shape.rootInterval), k), shape.root.stringIndex) == t
    requires Placement(shape.frets, t) == expected
    ensures TransposeShape(shape, note) == expected
  {
  }

  function Frets(low: int, d: int, g: int): seq<Option<int>> {
    [Some(low), None, Some(d), Some(g), None, None]
  }

  /** A voicing computed from the token's normalised name, the target fret
      and the placement. */
  lemma VoicingIs(shape: Shape, token: string, k: int, t: int, expected: seq<Option<int>>)
    requires 0 <= shape.root.stringIndex < 6 && 0 <= k < 12
    requires NormalizeNote(token) == SemitoneNotes[k]
    requires FretForPitch(AnchorPitch(ToneOf(shape.rootInterval), k), shape.root.stringIndex) == t
    requires Placement(shape.frets, t) == expected
    ensures Voicing(shape, token) == Entry(Label(token, shape.name), expected, shape.name)
  {
    RootPitchAt(k);
    Transposed(shape, NormalizeNote(token), k, t, expected);
  }

  /** A major shape voiced on a root: the fret of its reference string and
      its placement. */
  lemma MajorVoicing(j: int, token: string, k: int, t: int, expected: seq<Option<int>>)
    requires 0 <= j < 3 && 0 <= k < 12
    requires NormalizeNote(token) == SemitoneNotes[k]
    requires FretForPitch(AnchorPitch(ToneOf(MajorChords[j].rootInterval), k), 0) == t
    requires Placement(MajorChords[j].frets, t) == expected
    ensures Voicing(MajorChords[j], token).frets == expected
  {
    VoicingIs(MajorChords[j], token, k, t, expected);
  }

  lemma MajRootOnC(token: string)
    requires NormalizeNote(token) == SemitoneNotes[0]
    ensures Voicing(MajorChords[0], token).frets == Frets(8, 5, 9)
  {
    assert !NeedsOctave(MajorChords[0].frets, 8);
    MajorVoicing(0, token, 0, 8, Frets(8, 5, 9));
  }

  lemma MajThirdOnC(token: string)
    requires NormalizeNote(token) == SemitoneNotes[0]
    ensures Voicing(MajorChords[1], token).frets == Frets(12, 10, 12)
  {
    assert MajorChords[1].frets[0].value + 0 <= 0;
    MajorVoicing(1, token, 0, 0, Frets(12, 10, 12));
  }

  lemma MajFifthOnC(token: string)
    requires NormalizeNote(token) == SemitoneNotes[0]
    ensures Voicing(MajorChords[2], token).frets == Frets(3, 2, 5)
  {
    assert !NeedsOctave(MajorChords[2].frets, 3);
    MajorVoicing(2, token, 0, 3, Frets(3, 2, 5));
  }

  lemma MajRootOnF(token: string)
    requires NormalizeNote(token) == SemitoneNotes[5]
    ensures Voicing(MajorChords[0], token).frets == Frets(13, 10, 14)
  {
    assert MajorChords[0].frets[2].value + 1 <= 0;
    MajorVoicing(0, token, 5, 1, Frets(13, 10, 14));
  }

  lemma MajThirdOnF(token: string)
    requires NormalizeNote(token) == SemitoneNotes[5]
    ensures Voicing(MajorChords[1], token).frets == Frets(5, 3, 5)
  {
    assert !NeedsOctave(MajorChords[1].frets, 5);
    MajorVoicing(1, token, 5, 5, Frets(5, 3, 5));
  }

  lemma MajFifthOnF(token: string)
    requires NormalizeNote(token) == SemitoneNotes[5]
    ensures Voicing(MajorChords[2], token).frets == Frets(8, 7, 10)
  {
    assert !NeedsOctave(MajorChords[2].frets, 8);
    MajorVoicing(2, token, 5, 8, Frets(8, 7, 10));
  }

  lemma MajRootOnBb(token: string)
    requires NormalizeNote(token) == SemitoneNotes[10]
    ensures Voicing(MajorChords[0], token).frets == Frets(6, 3, 7)
  {
    assert !NeedsOctave(MajorChords[0].frets, 6);
    MajorVoicing(0, token, 10, 6, Frets(6, 3, 7));
  }

  lemma MajThirdOnBb(token: string)
    requires NormalizeNote(token) == SemitoneNotes[10]
    ensures Voicing(MajorChords[1], token).frets == Frets(10, 8, 10)
  {
    assert !NeedsOctave(MajorChords[1].frets, 10);
    MajorVoicing(1, token, 10, 10, Frets(10, 8, 10));
  }

  lemma MajFifthOnBb(token: string)
    requires NormalizeNote(token) == SemitoneNotes[10]
    ensures Voicing(MajorChords[2], token).frets == Frets(13, 12, 15)
  {
    assert MajorChords[2].frets[2].value + 1 <= 0;
    MajorVoicing(2, token, 10, 1, Frets(13, 12, 15));
  }

  lemma MajRootOnEb(token: string)
    requires NormalizeNote(token) == SemitoneNotes[3]
    ensures Voicing(MajorChords[0], token).frets == Frets(11, 8, 12)
  {
    assert !NeedsOctave(MajorChords[0].frets, 11);
    MajorVoicing(0, token, 3, 11, Frets(11, 8, 12));
  }

  lemma MajThirdOnEb(token: string)
    requires NormalizeNote(token) == SemitoneNotes[3]
    ensures Voicing(MajorChords[1], token).frets == Frets(3, 1, 3)
  {
    assert !NeedsOctave(MajorChords[1].frets, 3);
    MajorVoicing(1, token, 3, 3, Frets(3, 1, 3));
  }

  lemma MajFifthOnEb(token: string)
    requires NormalizeNote(token) == SemitoneNotes[3]
    ensures Voicing(MajorChords[2], token).frets == Frets(6, 5, 8)
  {
    assert !NeedsOctave(MajorChords[2].frets, 6);
    MajorVoicing(2, token, 3, 6, Frets(6, 5, 8));
  }

  /** With three candidates, the best move is the first of the least
      movements. */
  lemma PickOfThree(cands: seq<Entry>, prev: Entry, next: Entry)
    requires |cands| == 3 && IsBestAmong(cands, prev, next)
    ensures var m0, m1, m2 := Move(prev, cands[0]), Move(prev, cands[1]), Move(prev, cands[2]);
            next == if m0 <= m1 && m0 <= m2 then cands[0] else if m1 <= m2 then cands[1] else cands[2]
  {
    BestIsUnique(cands, prev, next);
    var m0, m1, m2 := Move(prev, cands[0]), Move(prev, cands[1]), Move(prev, cands[2]);
    var b := if m0 <= m1 && m0 <= m2 then 0 else if m1 <= m2 then 1 else 2;
    assert IsBestAmong(cands, prev, cands[b]);
    BestIsUnique(cands, prev, cands[b]);
  }

  /** "Root6" names no shape, so the first entry falls back to the first
      major shape. */
  lemma DefaultStartShape()
    ensures FindShape(MajorChords, "Root6") == None
    ensures StartShape(MajorChords, "Root6") == MajorChords[0]
  {
  }

  /** The first chord of the default progression: C on the first major
      shape, at fret 8. */
  lemma DefaultFirstEntry(token: string)
    requires NormalizeNote(token) == SemitoneNotes[0]
    ensures ValidGroup(MajorChords)
    ensures FirstEntry(MajorChords, "Root6", token).frets == Frets(8, 5, 9)
    ensures FirstEntry(MajorChords, "Root6", token).shapeName == "Maj-Root6"
  {
    CatalogGroupsAreValid("Major Chords");
    DefaultStartShape();
    assert FirstEntry(MajorChords, "Root6", token) == Voicing(MajorChords[0], token);
    MajRootOnC(token);
  }

  /** The sixth-chord group names two shapes "6th-Fifth6"; a lookup by that
      name finds the first. */
  lemma DuplicateNameFindsFirst()
    ensures FindShape(SixChords, "6th-Fifth6") == Some(2)
    ensures StartShape(SixChords, "6th-Fifth6") == SixChords[2] != SixChords[3]
  {
  }

  /** The optimising passes of the default progression C, F, B flat, E flat
      over the major shapes. The candidate lists hold the voicings the
      `Maj...On...` lemmas compute; from the first chord at fret 8, F takes
      the fifth-on-top shape at fret 8, B flat ties between the root shape
      (fret 6) and the third shape (fret 10) and keeps the earlier root
      shape, and E flat takes the fifth-on-top shape at fret 6. */
  lemma DefaultProgressionSteps(r: seq<Entry>, onF: seq<Entry>, onBb: seq<Entry>, onEb: seq<Entry>)
    requires |r| == 4 && |onF| == 3 && |onBb| == 3 && |onEb| == 3
    requires r[0].frets == Frets(8, 5, 9)
    requires onF[0].frets == Frets(13, 10, 14) && onF[1].frets == Frets(5, 3, 5) && onF[2].frets == Frets(8, 7, 10)
    requires onBb[0].frets == Frets(6, 3, 7) && onBb[1].frets == Frets(10, 8, 10) && onBb[2].frets == Frets(13, 12, 15)
    requires onEb[0].frets == Frets(11, 8, 12) && onEb[1].frets == Frets(3, 1, 3) && onEb[2].frets == Frets(6, 5, 8)
    requires IsBestAmong(onF, r[0], r[1]) && IsBestAmong(onBb, r[1], r[2]) && IsBestAmong(onEb, r[2], r[3])
    ensures r[1] == onF[2] && r[1].frets == Frets(8, 7, 10)
    ensures r[2] == onBb[0] && r[2].frets == Frets(6, 3, 7)
    ensures r[3] == onEb[2] && r[3].frets == Frets(6, 5, 8)
  {
    PickOfThree(onF, r[0], r[1]);
    PickOfThree(onBb, r[1], r[2]);
    PickOfThree(onEb, r[2], r[3]);
  }

  /** A bare letter names its own pitch class. */
  lemma NaturalName(name: string, letter: char, k: int)
    requires IsNoteLetter(letter) && name == [letter]
    requires k == LetterPitch(UpperAscii(letter)).value
    ensures NormalizeNote(name) == SemitoneNotes[k]
  {
    assert name == [letter] + "";
    NormalizeLetterMark(letter, "", k);
  }

  /** The natural default tokens: C and F name themselves. */
  lemma CRoot()
    ensures NormalizeNote("C") == SemitoneNotes[0]
  {
    NaturalName("C", 'C', 0);
  }

  lemma FRoot()
    ensures NormalizeNote("F") == SemitoneNotes[5]
  {
    NaturalName("F", 'F', 5);
  }

  /** A letter followed by `b` names the pitch class a semitone below the
      letter's. */
  lemma FlatName(name: string, letter: char, k: int)
    requires IsNoteLetter(letter) && name == [letter, 'b']
    requires k == (LetterPitch(UpperAscii(letter)).value + 11) % 12
    ensures NormalizeNote(name) == SemitoneNotes[k]
  {
    assert name == [letter] + "b";
    NormalizeLetterMark(letter, "b", k);
  }

  /** The flat default tokens: B flat names A sharp, and E flat names
      D sharp. */
  lemma BFlatRoot()
    ensures NormalizeNote("Bb") == SemitoneNotes[10]
  {
    FlatName("Bb", 'B', 10);
  }

  lemma EFlatRoot()
    ensures NormalizeNote("Eb") == SemitoneNotes[3]
  {
    FlatName("Eb", 'E', 3);
  }

  lemma DefaultRoots()
    ensures NormalizeNote("C") == SemitoneNotes[0] && NormalizeNote("F") == SemitoneNotes[5]
    ensures NormalizeNote("Bb") == SemitoneNotes[10] && NormalizeNote("Eb") == SemitoneNotes[3]
  {
    CRoot();
    FRoot();
    BFlatRoot();
    EFlatRoot();
  }

  /** The voicings of F in the major shapes, in catalog order. */
  lemma CandidatesOnF()
    ensures ValidGroup(MajorChords)
    ensures var c := Candidates(MajorChords, "F");
            && |c| == 3
            && c[0].frets == Frets(13, 10, 14) && c[1].frets == Frets(5, 3, 5) && c[2].frets == Frets(8, 7, 10)
            && c[2].shapeName == "Maj-Fifth6"
  {
    CatalogGroupsAreValid("Major Chords");
    var c := Candidates(MajorChords, "F");
    FRoot();
    assert c[0].frets == Frets(13, 10, 14) by { MajRootOnF("F"); }
    assert c[1].frets == Frets(5, 3, 5) by { MajThirdOnF("F"); }
    assert c[2].frets == Frets(8, 7, 10) by { MajFifthOnF("F"); }
  }

  /** The voicings of B flat in the major shapes, in catalog order. */
  lemma CandidatesOnBb()
    ensures ValidGroup(MajorChords)
    ensures var c := Candidates(MajorChords, "Bb");
            && |c| == 3
            && c[0].frets == Frets(6, 3, 7) && c[1].frets == Frets(10, 8, 10) && c[2].frets == Frets(13, 12, 15)
            && c[0].shapeName == "Maj-Root6"
  {
    CatalogGroupsAreValid("Major Chords");
    var c := Candidates(MajorChords, "Bb");
    BFlatRoot();
    assert c[0].frets == Frets(6, 3, 7) by { MajRootOnBb("Bb"); }
    assert c[1].frets == Frets(10, 8, 10) by { MajThirdOnBb("Bb"); }
    assert c[2].frets == Frets(13, 12, 15) by { MajFifthOnBb("Bb"); }
  }

  /** The voicings of E flat in the major shapes, in catalog order. */
  lemma CandidatesOnEb()
    ensures ValidGroup(MajorChords)
    ensures var c := Candidates(MajorChords, "Eb");
            && |c| == 3
            && c[0].frets == Frets(11, 8, 12) && c[1].frets == Frets(3, 1, 3) && c[2].frets == Frets(6, 5, 8)
            && c[2].shapeName == "Maj-Fifth6"
  {
    CatalogGroupsAreValid("Major Chords");
    var c := Candidates(MajorChords, "Eb");
    EFlatRoot();
    assert c[0].frets == Frets(11, 8, 12) by { MajRootOnEb("Eb"); }
    assert c[1].frets == Frets(3, 1, 3) by { MajThirdOnEb("Eb"); }
    assert c[2].frets == Frets(6, 5, 8) by { MajFifthOnEb("Eb"); }
  }

  /** The default progression: C, F, B flat and E flat over the major
      shapes, starting from the selected name "Root6". */
  lemma DefaultProgression(r: seq<Entry>)
    requires ValidGroup(MajorChords)
    requires r == Progression(MajorChords, "Root6", ["C", "F", "Bb", "Eb"])
    ensures |r| == 4
    ensures r[0].frets == Frets(8, 5, 9) && r[0].shapeName == "Maj-Root6"
    ensures r[1].frets == Frets(8, 7, 10) && r[1].shapeName == "Maj-Fifth6"
    ensures r[2].frets == Frets(6, 3, 7) && r[2].shapeName == "Maj-Root6"
    ensures r[3].frets == Frets(6, 5, 8) && r[3].shapeName == "Maj-Fifth6"
  {
    var tokens := ["C", "F", "Bb", "Eb"];
    assert |r| == |tokens| == 4;
    DefaultRoots();
    DefaultFirstEntry("C");
    CandidatesOnF();
    CandidatesOnBb();
    CandidatesOnEb();
    var onF, onBb, onEb := Candidates(MajorChords, "F"), Candidates(MajorChords, "Bb"), Candidates(MajorChords, "Eb");
    assert IsBestAmong(onF, r[0], r[1]) by { assert tokens[1] == "F"; }
    assert IsBestAmong(onBb, r[1], r[2]) by { assert tokens[2] == "Bb"; }
    assert IsBestAmong(onEb, r[2], r[3]) by { assert tokens[3] == "Eb"; }
    DefaultProgressionSteps(r, onF, onBb, onEb);
  }
}

=== FILE: text.dfy ===
/** The three JavaScript string operations `normalizeNote` relies on:
    `trim`, a first-occurrence `replace` and letter-case mapping. Case
    mapping is restricted to the ASCII letters; every other character is
    left as it is. */
module Text {

  /** The code points JavaScript's `String.prototype.trim` strips: the
      WhiteSpace and LineTerminator productions of ECMAScript. */
  predicate IsJsSpace(c: char) {
    || c == '\t' || c == '\n' || c == '\U{000B}' || c == '\U{000C}' || c == '\r'
    || c == ' ' || c == '\U{00A0}' || c == '\U{1680}'
    || ('\U{2000}' <= c <= '\U{200A}')
    || c == '\U{2028}' || c == '\U{2029}' || c == '\U{202F}' || c == '\U{205F}'
    || c == '\U{3000}' || c == '\U{FEFF}'
  }

  predicate AllSpace(s: string) {
    forall i :: 0 <= i < |s| ==> IsJsSpace(s[i])
  }

  /** Neither starts nor ends with a space: what `trim` leaves behind. */
  predicate IsTrimmed(s: string) {
    |s| == 0 || (!IsJsSpace(s[0]) && !IsJsSpace(s[|s| - 1]))
  }

  /** Drops the leading spaces. */
  function TrimStart(s: string): string {
    if |s| > 0 && IsJsSpace(s[0]) then TrimStart(s[1..]) else s
  }

  /** Drops the trailing spaces. */
  function TrimEnd(s: string): string {
    if |s| > 0 && IsJsSpace(s[|s| - 1]) then TrimEnd(s[..|s| - 1]) else s
  }

  /** `s.trim()`. */
  function Trim(s: string): string {
    TrimEnd(TrimStart(s))
  }

  /** `TrimStart` keeps the suffix of `s` that starts at its first
      non-space character. */
  lemma {:induction false} TrimStartSpec(s: string)
    ensures var r := TrimStart(s);
            && |r| <= |s| && r == s[|s| - |r|..]
            && AllSpace(s[..|s| - |r|])
            && (|r| == 0 || !IsJsSpace(r[0]))
    decreases |s|
  {
    if |s| > 0 && IsJsSpace(s[0]) {
      TrimStartSpec(s[1..]);
      var r := TrimStart(s[1..]);
      assert s[..|s| - |r|] == [s[0]] + s[1..][..|s| - 1 - |r|];
    }
  }

  /** `TrimEnd` keeps the prefix of `s` that ends at its last non-space
      character. */
  lemma {:induction false} TrimEndSpec(s: string)
    ensures var r := TrimEnd(s);
            && |r| <= |s| && r == s[..|r|]
            && AllSpace(s[|r|..])
            && (|r| == 0 || !IsJsSpace(r[|r| - 1]))
    decreases |s|
  {
    if |s| > 0 && IsJsSpace(s[|s| - 1]) {
      TrimEndSpec(s[..|s| - 1]);
      var r := TrimEnd(s[..|s| - 1]);
      assert s[|r|..] == s[..|s| - 1][|r|..] + [s[|s| - 1]];
    }
  }

  /** A window of `s` with only spaces on either side of it. */
  predicate IsWindow(s: string, r: string, i: int) {
    0 <= i <= |s| - |r| && r == s[i..i + |r|] && AllSpace(s[..i]) && AllSpace(s[i + |r|..])
  }

  /** What `trim` returns is a window of its input with only spaces outside
      it, and it neither starts nor ends with a space. */
  lemma TrimSpec(s: string)
    ensures IsTrimmed(Trim(s))
    ensures exists i :: IsWindow(s, Trim(s), i)
  {
    var front := TrimStart(s);
    var r := TrimEnd(front);
    TrimStartSpec(s);
    TrimEndSpec(front);
    assert |r| == 0 || r[0] == front[0];
    WindowOfSuffixPrefix(s, front, r);
  }

  /** A prefix of a suffix, with spaces cut off both ends, is a window. */
  lemma WindowOfSuffixPrefix(s: string, front: string, r: string)
    requires |front| <= |s| && front == s[|s| - |front|..] && AllSpace(s[..|s| - |front|])
    requires |r| <= |front| && r == front[..|r|] && AllSpace(front[|r|..])
    ensures IsWindow(s, r, |s| - |front|)
  {
    var i := |s| - |front|;
    assert s[i..i + |r|] == r;
    assert s[i + |r|..] == front[|r|..];
  }

  lemma {:induction false} TrimStartOfPadded(pre: string, u: string)
    requires AllSpace(pre)
    requires |u| == 0 || !IsJsSpace(u[0])
    ensures TrimStart(pre + u) == u
    decreases |pre|
  {
    if |pre| > 0 {
      assert (pre + u)[1..] == pre[1..] + u;
      TrimStartOfPadded(pre[1..], u);
    } else {
      assert pre + u == u;
    }
  }

  lemma {:induction false} TrimEndOfPadded(u: string, post: string)
    requires AllSpace(post)
    requires |u| == 0 || !IsJsSpace(u[|u| - 1])
    ensures TrimEnd(u + post) == u
    decreases |post|
  {
    if |post| > 0 {
      assert (u + post)[..|u + post| - 1] == u + post[..|post| - 1];
      TrimEndOfPadded(u, post[..|post| - 1]);
    } else {
      assert u + post == u;
    }
  }

  /** Surrounding whitespace never changes what `trim` returns. */
  lemma TrimPadded(pre: string, t: string, post: string)
    requires AllSpace(pre) && AllSpace(post) && IsTrimmed(t)
    ensures Trim(pre + t + post) == t
  {
    if |t| > 0 {
      assert pre + t + post == pre + (t + post);
      TrimStartOfPadded(pre, t + post);
      TrimEndOfPadded(t, post);
    } else {
      assert pre + t + post == (pre + post) + "";
      assert AllSpace(pre + post);
      TrimStartOfPadded(pre + post, "");
    }
  }

  /** `s.replace(/x/, y)` for a one-character pattern: only the FIRST
      occurrence of `from` is replaced. */
  function ReplaceFirst(s: string, from: char, to: char): (r: string)
    ensures |r| == |s|
    ensures forall k :: 0 <= k < |s| ==>
              r[k] == (if s[k] == from && from !in s[..k] then to else s[k])
  {
    if |s| == 0 then s
    else if s[0] == from then [to] + s[1..]
    else
      var rest := ReplaceFirst(s[1..], from, to);
      assert forall k :: 1 <= k < |s| ==> s[..k] == [s[0]] + s[1..][..k - 1];
      [s[0]] + rest
  }

  lemma ReplaceFirstAbsent(s: string, from: char, to: char)
    requires from !in s
    ensures ReplaceFirst(s, from, to) == s
  {
  }

  function UpperAscii(c: char): char {
    if 'a' <= c <= 'z' then (c as int - 32) as char else c
  }

  function LowerAscii(c: char): char {
    if 'A' <= c <= 'Z' then (c as int + 32) as char else c
  }

  function UpperAll(s: string): string {
    seq(|s|, i requires 0 <= i < |s| => UpperAscii(s[i]))
  }

  function LowerAll(s: string): string {
    seq(|s|, i requires 0 <= i < |s| => LowerAscii(s[i]))
  }

  /** The capitalisation step of `normalizeNote`: first character upper
      case, the rest lower case; a string of length at most one is upper
      cased as a whole. */
  function Capitalize(s: string): (r: string)
    ensures |r| == |s|
    ensures |s| > 0 ==> r[0] == UpperAscii(s[0])
    ensures forall i :: 1 <= i < |s| ==> r[i] == LowerAscii(s[i])
  {
    if |s| > 1 then [UpperAscii(s[0])] + LowerAll(s[1..]) else UpperAll(s)
  }
}

=== FILE: transposer.dfy ===
/** `transposeShape`: places a relative shape on the neck for a chord root. */
module Transposer {
  import opened Wrappers
  import opened Pitch
  import opened Fretting
  import opened Catalog

  /** The chord tone a shape's reference string carries, as far as
      `transposeShape` distinguishes them. */
  datatype Tone = Root | Third | Fifth | Other

  /** The cases of the switch in `transposeShape`; any other tag, "seventh"
      included, is `Other`. */
  function ToneOf(rootInterval: string): Tone {
    if rootInterval == "root" then Root
    else if rootInterval == "third" then Third
    else if rootInterval == "fifth" then Fifth
    else Other
  }

  /** Semitones from the chord root up to the tone: a major third is four,
      a perfect fifth seven, and the root and any other tag zero. */
  function Semitones(tone: Tone): int {
    match tone
    case Third => 4
    case Fifth => 7
    case _ => 0
  }

  /** The pitch class the reference string must sound for a chord whose
      root has pitch class `rootPitch`. */
  function AnchorPitch(tone: Tone, rootPitch: int): (p: int)
    requires 0 <= rootPitch < 12
    ensures 0 <= p < 12
  {
    (rootPitch + Semitones(tone)) % 12
  }

  /** The fret in [0, 11] at which the shape's reference string sounds the
      anchor tone of the chord on `rootNote`. */
  function TargetFret(shape: Shape, rootNote: string): (t: int)
    requires 0 <= shape.root.stringIndex < 6
    ensures 0 <= t < 12
    ensures (OpenStringNotes[shape.root.stringIndex] + t) % 12 ==
              AnchorPitch(ToneOf(shape.rootInterval), RootPitch(rootNote))
  {
    FretForPitch(AnchorPitch(ToneOf(shape.rootInterval), RootPitch(rootNote)), shape.root.stringIndex)
  }

  /** The switch in `transposeShape`: each case asks `getFretForNote` for
      the scale name `Semitones(tone)` above the root `SemitoneNotes[rootIndex]`
      (for "root" and the default case that is the normalised root itself).
      Its result is the fret at which string `s` sounds the anchor pitch, so
      `TargetFret` is what the switch computes. */
  function AnchorFret(tone: Tone, rootIndex: int, s: int): (t: int)
    requires 0 <= rootIndex < 12 && 0 <= s < 6
    ensures t == FretForPitch(AnchorPitch(tone, rootIndex), s)
  {
    var k := (rootIndex + Semitones(tone)) % 12;
    FretForCanonical(k, s);
    GetFretForNote(SemitoneNotes[k], s)
  }

  /** Adds `d` to every played fret and keeps muted strings muted. */
  function Shift(frets: seq<Option<int>>, d: int): (r: seq<Option<int>>)
    ensures |r| == |frets|
    ensures forall i :: 0 <= i < |frets| ==> (r[i].None? <==> frets[i].None?)
    ensures forall i :: 0 <= i < |frets| && frets[i].Some? ==> r[i].value == frets[i].value + d
  {
    seq(|frets|, i requires 0 <= i < |frets| =>
      match frets[i] case None => None case Some(f) => Some(f + d))
  }

  predicate AnyPlayed(frets: seq<Option<int>>) {
    exists i :: 0 <= i < |frets| && frets[i].Some?
  }

  /** `Math.min` over the played frets, or 0 when no string is played. */
  function MinFret(frets: seq<Option<int>>): (m: int)
    ensures forall i :: 0 <= i < |frets| && frets[i].Some? ==> m <= frets[i].value
    ensures AnyPlayed(frets) ==> exists i :: 0 <= i < |frets| && frets[i] == Some(m)
    ensures !AnyPlayed(frets) ==> m == 0
  {
    if |frets| == 0 then 0
    else
      var rest := MinFret(frets[1..]);
      assert forall i :: 1 <= i < |frets| ==> frets[i] == frets[1..][i - 1];
      match frets[0]
      case None =>
        assert AnyPlayed(frets) ==> AnyPlayed(frets[1..]);
        rest
      case Some(f) =>
        if !AnyPlayed(frets[1..]) || f <= rest then f else rest
  }

  /** The second half of `transposeShape`: the offsets added to the
      target fret `t`, moved up an octave when the lowest played fret is
      negative or some played fret is 0. */
  function PlaceShape(offsets: seq<Option<int>>, t: int): (r: seq<Option<int>>)
    ensures r == Placement(offsets, t)
  {
    var placed := Shift(offsets, t);
    var minFret := MinFret(placed);
    if minFret < 0 then Shift(placed, 12)
    else if Some(0) in placed then Shift(placed, 12)
    else placed
  }

  /** `transposeShape`: the shape placed at the fret where its reference
      string sounds the anchor tone of the chord on `rootNote`. */
  function TransposeShape(shape: Shape, rootNote: string): (r: seq<Option<int>>)
    requires 0 <= shape.root.stringIndex < 6
    ensures |r| == |shape.frets|
    ensures forall i :: 0 <= i < |r| ==> (r[i].None? <==> shape.frets[i].None?)
  {
    PlaceShape(shape.frets, TargetFret(shape, rootNote))
  }

  // ---------------------------------------------------------------------
  // The reference placement, stated without a minimum.

  /** Some played string would sit at or below the nut at target fret `t`. */
  predicate NeedsOctave(offsets: seq<Option<int>>, t: int) {
    exists i :: 0 <= i < |offsets| && offsets[i].Some? && offsets[i].value + t <= 0
  }

  function Lift(offsets: seq<Option<int>>, t: int): int {
    if NeedsOctave(offsets, t) then 12 else 0
  }

  /** The offsets placed at `t`, or at `t + 12` when that is needed to keep
      every played fret above the nut. */
  function Placement(offsets: seq<Option<int>>, t: int): seq<Option<int>> {
    Shift(offsets, t + Lift(offsets, t))
  }

  predicate PlayedAtLeast(frets: seq<Option<int>>, lo: int) {
    forall i :: 0 <= i < |frets| && frets[i].Some? ==> frets[i].value >= lo
  }

  // ---------------------------------------------------------------------
  // Properties of the placement.

  /** Placing a shape moves it as a whole: the same strings are muted, and
      the distance between any two played strings is kept. */
  lemma PlacementKeepsShape(offsets: seq<Option<int>>, t: int, i: int, j: int)
    requires 0 <= i < |offsets| && 0 <= j < |offsets|
    requires offsets[i].Some? && offsets[j].Some?
    ensures var r := Placement(offsets, t);
            |r| == |offsets| && r[i].Some? && r[j].Some?
            && r[i].value - r[j].value == offsets[i].value - offsets[j].value
  {
  }

  /** When no offset is more than eleven frets below the reference and the
      target fret is in [0, 11], every played fret of the placement is
      above the nut. */
  lemma PlacementAboveNut(offsets: seq<Option<int>>, t: int)
    requires 0 <= t < 12 && PlayedAtLeast(offsets, -11)
    ensures PlayedAtLeast(Placement(offsets, t), 1)
  {
    var r := Placement(offsets, t);
    forall i | 0 <= i < |r| && r[i].Some?
      ensures r[i].value >= 1
    {
      if !NeedsOctave(offsets, t) {
        assert !(offsets[i].value + t <= 0);
      }
    }
  }

  /** The octave shift is taken only when it is needed: the shape is moved
      up exactly when staying put would leave a played fret at or below the
      nut, and after the shift one played fret is within the first twelve. */
  lemma PlacementIsLowest(offsets: seq<Option<int>>, t: int)
    ensures !NeedsOctave(offsets, t) ==> Placement(offsets, t) == Shift(offsets, t) && PlayedAtLeast(Shift(offsets, t), 1)
    ensures NeedsOctave(offsets, t) ==>
              exists i :: 0 <= i < |offsets| && Placement(offsets, t)[i].Some? && Placement(offsets, t)[i].value <= 12
  {
    if NeedsOctave(offsets, t) {
      var i :| 0 <= i < |offsets| && offsets[i].Some? && offsets[i].value + t <= 0;
      assert Placement(offsets, t)[i].value <= 12;
    }
  }

  /** String `s` is played and sounds pitch class `p`. */
  predicate SoundsAt(frets: seq<Option<int>>, s: int, p: int) {
    0 <= s < 6 && s < |frets| && frets[s].Some? && (OpenStringNotes[s] + frets[s].value) % 12 == p
  }

  /** A string with offset 0 sounds the pitch class the target fret gives
      it, whether or not the shape moved up an octave. */
  lemma PlacementKeepsPitchClass(offsets: seq<Option<int>>, t: int, s: int)
    requires 0 <= s < 6 && s < |offsets| && offsets[s] == Some(0)
    ensures SoundsAt(Placement(offsets, t), s, (OpenStringNotes[s] + t) % 12)
  {
    var open := OpenStringNotes[s];
    var lift := Lift(offsets, t);
    assert Placement(offsets, t)[s].value == t + lift;
    assert (open + t + lift) % 12 == (open + t) % 12 by {
      if lift == 12 {
        assert open + t + lift == (open + t) + 12;
      }
    }
  }

  /** The reference string of a transposed shape whose own offset is 0
      sounds the anchor tone of the chord: the root, or the major third or
      perfect fifth above it. */
  lemma TransposeSoundsAnchor(shape: Shape, rootNote: string)
    requires 0 <= shape.root.stringIndex < 6 && shape.root.stringIndex < |shape.frets|
    requires shape.frets[shape.root.stringIndex] == Some(0)
    ensures SoundsAt(TransposeShape(shape, rootNote), shape.root.stringIndex,
                     AnchorPitch(ToneOf(shape.rootInterval), RootPitch(rootNote)))
  {
    var s := shape.root.stringIndex;
    var t := TargetFret(shape, rootNote);
    assert (OpenStringNotes[s] + t) % 12 == AnchorPitch(ToneOf(shape.rootInterval), RootPitch(rootNote));
    PlacementKeepsPitchClass(shape.frets, t, s);
    assert TransposeShape(shape, rootNote) == Placement(shape.frets, t);
  }

  /** A transposed shape keeps the muted strings of its offsets, and every
      played string sits at its offset plus one common fret: the target
      fret, or the target fret plus 12 when the shape moved up an octave. */
  lemma TransposeMovesRigidly(shape: Shape, rootNote: string)
    requires 0 <= shape.root.stringIndex < 6
    ensures var t := TargetFret(shape, rootNote);
            var k := t + Lift(shape.frets, t);
            var r := TransposeShape(shape, rootNote);
            && 0 <= t < 12 && (k == t || k == t + 12)
            && |r| == |shape.frets|
            && (forall i :: 0 <= i < |r| ==> (r[i].None? <==> shape.frets[i].None?))
            && (forall i :: 0 <= i < |r| && shape.frets[i].Some? ==> r[i].value == shape.frets[i].value + k)
  {
    var t := TargetFret(shape, rootNote);
    assert TransposeShape(shape, rootNote) == Placement(shape.frets, t);
  }

  /** A transposed shape whose offsets stay within an octave below the
      reference has every played string above the nut. */
  lemma TransposeAboveNut(shape: Shape, rootNote: string)
    requires 0 <= shape.root.stringIndex < 6
    requires PlayedAtLeast(shape.frets, -11)
    ensures PlayedAtLeast(TransposeShape(shape, rootNote), 1)
  {
    PlacementAboveNut(shape.frets, TargetFret(shape, rootNote));
  }

  /** The tags the catalog uses: "third" and "fifth" anchor four and seven
      semitones above the root, and "root", "seventh" and any other tag
      anchor the root itself. */
  lemma ToneTags(tag: string)
    ensures Semitones(ToneOf("third")) == 4 && Semitones(ToneOf("fifth")) == 7
    ensures Semitones(ToneOf("root")) == 0 && Semitones(ToneOf("seventh")) == 0
    ensures tag != "third" && tag != "fifth" ==> Semitones(ToneOf(tag)) == 0
  {
  }
}

=== FILE: wrappers.dfy ===
/** The Some/None datatype used for muted strings, failed lookups and the
    "no progression" outcome of the optimizer. */
module Wrappers {

  datatype Option<+T> = None | Some(value: T)
}
